=== FILE: README.md ===
# Course registration (Kursanmeldung) in Dafny

This project is a Dafny model of the domain rules of a small Django
course-registration app. It covers three parts.

- **Courses and registrations** (`courses/models.py`):
  - a course's confirmed head-count and whether it is full;
  - its number of sessions between start and end date on the chosen weekdays;
  - the check that the end date does not precede the start date;
  - a registration's member or non-member price, halved for a half course when the course allows one.
- **The public pages** (`courses/views.py`):
  - the list of upcoming courses;
  - the registration form. It is modelled as a state transition on a store of two tables. Submitting it either changes nothing or appends exactly one registration, which is put on the waitlist when the course is full.
- **The management interface** (`courses/admin.py`):
  - what an instructor sees and may change, compared with other staff. An instructor is a member of the `Kursleitung` group;
  - the attendance workbook: confirmed participants, ordered by last and then first name;
  - the CSV export of registrations.

Modules:

| module | file | contents |
|---|---|---|
| `Util` | util.dfy | `Option`, `Result`, order-preserving `Filter`, `Join` (Python's `str.join`), code-point string order `LexLe` |
| `Calendar` | calendar.dfy | dates as proleptic Gregorian ordinals (`date.toordinal()`), `date.weekday()`, the seven weekday codes |
| `Models` | models.dfy | courses, registrations, capacity, price, session count, date validation |
| `Views` | views.dfy | `course_list`, `register`, and the form's validation rules |
| `Admin` | admin.dfy | roles, row filtering, permissions, attendance and CSV exports |

Conventions:

- **Dates** are integers in `[1, 3652059]`, the ordinals of `date.min` and `date.max`. The weekday of ordinal `n` is `(n + 6) % 7`, with Monday as 0.
- **Money** is integer cents. A price is a `real`, because halving a two-place decimal is exact.
- **The store** holds the `Course` and `Registration` tables as sequences, in table order.
- **Values from outside** are parameters:
  - "today";
  - the primary key the database hands out;
  - the creation time;
  - the caller's user id and group names;
  - the answers of the framework's default permission checks (`super().has_*_permission`), passed as `fallback`.

The code and its comments disagree in one place. The comment at `courses/admin.py:32` says instructors may not change any data. The code at `courses/admin.py:34-36` lets an instructor change a course assigned to them. The model follows the code (`Admin.CourseChangePermission`).

## Model

| member | source | states |
|---|---|---|
| Calendar.WeekdayIndex | courses/models.py:85 | `date.weekday()` of an ordinal lies between 0 (Monday) and 6 (Sunday) |
| Calendar.WeekdayIndexSteps | courses/models.py:85 | `date.min` and 2024-01-01 are Mondays, and the weekday advances by one, modulo a week, from each day to the next |
| Calendar.FromCode | courses/models.py:22-31 | a stored code denotes a weekday exactly when it is that weekday's code |
| Calendar.Desired | courses/models.py:77-80 | the desired weekday indices are those of the selected codes; the set is empty exactly when no code is selected |
| Calendar.AllWeekdaysDesired | courses/models.py:77-78 | with all seven codes selected, every date's weekday is desired |
| Calendar.JoinCodesRoundTrip | courses/admin.py:85 | joining a non-empty list of codes with ", " loses nothing: parsing the text gives the list back |
| Models.StatusCode | courses/models.py:98-101 | each status is stored as a non-empty code that fits the column's `max_length=10` |
| Models.StatusCodeRoundTrip | courses/models.py:98-101 | distinct statuses have distinct codes: the stored code reads back as the status |
| Models.StatusLabelsDistinct | courses/models.py:98-101 | `get_status_display()` gives the two statuses different labels, so the label determines the status |
| Models.FindCourse | courses/views.py:17 | the lookup returns a course of the table with the requested key, and finds nothing exactly when no course has that key |
| Models.FindCourseUnique | courses/views.py:17 | with unique keys, looking up a course's own key returns that course |
| Models.Price | courses/models.py:119-123 | the price is half of the member or non-member tariff when a half course is requested and allowed, and the full tariff otherwise |
| Models.TotalPrice | courses/models.py:125-127 | the total is the price itself, a flat fee: half or full tariff as for the price |
| Models.PriceHalvedIff | courses/models.py:121-123 | for a non-zero tariff the price is half of it if and only if a half course is requested and allowed, and the full tariff if and only if not |
| Models.HalfRequestIgnored | courses/models.py:121-123 | on a course without the half option, asking for a half course does not change the price |
| Models.PriceBounds | courses/models.py:119-123 | for a non-negative tariff the price lies between half the tariff and the full tariff |
| Models.ConfirmedOf | courses/models.py:68 | the counted rows are exactly the table's CONFIRMED registrations of the course, each with its multiplicity |
| Models.CurrentRegistrations | courses/models.py:67-68 | the count is at most the table size, and zero exactly when no registration of the course is CONFIRMED |
| Models.CurrentRegistrationsSnoc | courses/models.py:67-68 | saving one registration raises a course's count by one exactly when it is a CONFIRMED registration of that course |
| Models.IsFullAfterSave | courses/models.py:67-71 | saving a waitlisted registration, or one of another course, never changes whether a course is full; a full course stays full whatever is saved |
| Models.CurrentRegistrationsEmpty | courses/models.py:67-71 | a course with only waitlisted or foreign registrations counts zero and is full exactly when its capacity is zero |
| Models.Clean | courses/models.py:90-94 | the course is rejected, on the `end_date` field, exactly when both dates are set and the end precedes the start; a missing date is never rejected |
| Models.SessionCount | courses/models.py:73-88 | the day-by-day loop returns the number of dates in the inclusive range whose weekday is selected, and 0 when a date or the weekday selection is missing |
| Models.SessionCountBound | courses/models.py:81-88 | the session count is at most the number of days in the range, and equals it when all seven weekdays are selected |
| Models.RejectedCourseHasNoSessions | courses/models.py:84 | a course with its end before its start has no sessions, because the loop never runs |
| Models.SessionCountAsWritten | courses/models.py:84-87 | the loop with a `date` counter raises exactly when the range ends on `date.max` (with weekdays selected), and otherwise returns the intended count |
| Models.DateMaxCourseOverflows | courses/models.py:84-87 | a one-day course on Friday 9999-12-31 has one session, yet the loop as written steps past `date.max` on it |
| Views.CourseList | courses/views.py:12 | the list holds exactly the courses whose end date is set and not before today, each as often as in the table |
| Views.CourseListAppend | courses/views.py:12 | the list of two tables back to back is the two lists back to back |
| Views.CourseListShrinks | courses/views.py:11-12 | a later day never lists more courses |
| Views.NewRegistration | courses/views.py:21-25 | the saved row copies the form's fields, belongs to the URL's course, is WAITLIST exactly when the course is full and keeps `terms_accepted` false |
| Views.Register | courses/views.py:16-29 | unknown course: not found, nothing stored; any method other than POST, or an invalid form: the form page, nothing stored; valid form: redirect, the course table unchanged, every existing registration kept, and exactly one appended: the row `NewRegistration` builds from the submitted fields for the URL's course |
| Views.RegisterAcceptsExactlyValidForms | courses/forms.py:8-38 | for a known course a submission is saved exactly when the terms are accepted and every field meets its declared rule: names of 1 to 100 characters, a well-formed e-mail of at most 254, an IBAN of 1 to 34, a BIC of at most 11, an account holder of 1 to 200, and no text containing the null character (the framework's rule for every form text field) |
| Views.TermsMustBeAccepted | courses/forms.py:34-38 | a submission without accepted terms never stores anything or redirects |
| Views.RegisterStatus | courses/views.py:23-25 | the stored registration is WAITLIST exactly when the course was full before the save and CONFIRMED exactly when it was not; its terms flag is false |
| Views.RegisterCounts | courses/views.py:20-25 | a request raises the confirmed count of the chosen course by one exactly when it saves a registration and the course was not full; other courses' counts do not change |
| Views.RegisterKeepsCapacity | courses/views.py:23-25 | if every course is within its capacity before a request, it still is afterwards |
| Admin.RoleOf | courses/admin.py:26 | the caller is treated as an instructor exactly when they belong to the `Kursleitung` group |
| Admin.VisibleCourses | courses/admin.py:24-29 | an instructor sees exactly the courses assigned to them, each as often as in the table; other staff see the whole table |
| Admin.CourseChangePermission | courses/admin.py:31-37 | an instructor may open the course list and may change a course exactly when it is assigned to them; other staff get the framework's answer |
| Admin.CourseDeletePermission | courses/admin.py:39-42 | an instructor may never delete a course; other staff get the framework's answer |
| Admin.InstructorChangesExactlyVisibleCourses | courses/admin.py:24-37 | an instructor may change a course of the table exactly when it is on their list |
| Admin.HiddenCourseIsUntouchable | courses/admin.py:24-42 | a course hidden from an instructor's list can be neither changed nor deleted by them |
| Admin.VisibleRegistrations | courses/admin.py:165-170 | an instructor sees exactly the registrations whose course is assigned to them, each as often as in the table; other staff see the whole table |
| Admin.InstructorRegistrationsFollowCourses | courses/admin.py:165-170 | an instructor sees a registration exactly when its course is on their course list |
| Admin.RegistrationModulePermission | courses/admin.py:159-163 | an instructor always has access to the registration module; other staff get the framework's answer |
| Admin.RegistrationViewPermission | courses/admin.py:172-176 | an instructor may always view; other staff get the framework's answer |
| Admin.RegistrationAddPermission | courses/admin.py:178-180 | nobody may add a registration through the management interface |
| Admin.RegistrationChangePermission | courses/admin.py:182-186 | an instructor may open the list but change no registration; other staff get the framework's answer |
| Admin.RegistrationDeletePermission | courses/admin.py:188-192 | an instructor may never delete a registration; other staff get the framework's answer |
| Admin.InstructorReadOnlyOnRegistrations | courses/admin.py:159-192 | an instructor may see every registration but never add, change or delete one, whatever the framework would allow |
| Admin.InstructorCourseListExample | courses/tests.py:63-68 | the first instructor's course list is "Course 1" alone |
| Admin.InstructorRegistrationListExample | courses/tests.py:70-74 | the first instructor's registration list is Foo's registration alone |
| Admin.NameLeTotal | courses/admin.py:99 | any two registrations are comparable by (last name, first name) |
| Admin.NameLeTransitive | courses/admin.py:99 | the (last name, first name) order is transitive |
| Admin.NameLeAntisymmetric | courses/admin.py:99 | two registrations that may each precede the other have the same last and first names |
| Admin.SortByName | courses/admin.py:99 | the result is ordered by last name and then first name and is a permutation of the input |
| Admin.Participants | courses/admin.py:99 | the participants are the course's CONFIRMED registrations, each with its multiplicity, ordered by last and then first name; there are as many as the course's confirmed count |
| Admin.AttendanceListsConfirmedOnly | courses/admin.py:99 | a registration is listed if and only if it is a CONFIRMED registration of the course |
| Admin.ParticipantsConfirmed | courses/admin.py:99 | every listed participant is CONFIRMED and belongs to the course |
| Admin.AttendanceExample | courses/admin.py:99 | of two confirmed registrations and one waitlisted one, the two confirmed are listed, "Bar" before "Qux" |
| Admin.AttendanceRow | courses/admin.py:102-106 | a row has five cells: first name, last name, e-mail, status label, check box |
| Admin.AttendanceRows | courses/admin.py:100-107 | one row per participant, in participant order |
| Admin.ParticipantTable | courses/admin.py:99-107 | the table has one row per confirmed registration, in name order, each showing the confirmed label and the check box |
| Admin.WeekdaysCell | courses/admin.py:85 | the cell is "-" without weekdays and otherwise a ", "-joined text from which the weekday list reads back |
| Admin.LocationsCell | courses/admin.py:86 | the cell is "-" without locations; otherwise it is laid out exactly as the names joined by ", ": as long as the names and separators together, every name at its place, and ", " after every name but the last |
| Admin.ShowsLocationsExactly | courses/admin.py:86 | that layout pins the cell down: any text with it is the locations cell |
| Util.JoinedAsUnique | courses/admin.py:85-86 | a text as long as the parts and separators together, with every part at its place and the separator after every part but the last, is `sep.join(parts)` |
| Admin.AttendanceSheetFor | courses/admin.py:69-107 | the sheet is titled "Teilnehmerliste" and its heading names the course; the info row has the captions Datum, Beginn, Ende, Wochentage, Ort above the course's dates, start and end times, a weekdays cell that parses back to the selected codes ("-" when none) and the locations cell as `LocationsCell` lays it out; the table header is Vorname, Nachname, E-Mail, Status, Anwesend, above the participant table |
| Admin.ExportAttendanceList | courses/admin.py:53-120 | the workbook of a non-empty selection is titled with the first course's name, shows its dates, its weekdays and locations cells as for a single course, the header Vorname, Nachname, E-Mail, Status, Anwesend, and one row per confirmed registration of that course, in name order |
| Admin.OnlyFirstCourseExported | courses/admin.py:53-120 | courses selected after the first do not affect the export |
| Admin.HeaderRow | courses/admin.py:143 | the header row has one text cell per field name, in order |
| Admin.CsvRow | courses/admin.py:145-154 | a data row has one cell per field name |
| Admin.CsvRowContents | courses/admin.py:145-154 | a data row holds, in order, the course name, first name, last name, e-mail, the status code that reads back as the status, the terms flag, the price and the creation time |
| Admin.CsvRowMatchesHeader | courses/admin.py:139-154 | every cell of a data row is the value named by the header above it |
| Admin.CsvRows | courses/admin.py:144-154 | one data row per selected registration, in selection order, each with one cell per field name |
| Admin.ExportCsv | courses/admin.py:135-155 | the export is the fixed header followed by the data rows of the selection, one row more than the selection |
| Admin.ExportCsvRectangular | courses/admin.py:139-154 | every exported row, header included, has exactly one cell per field name |
| Admin.CsvRowsAppend | courses/admin.py:144-154 | exporting two selections back to back gives the same data rows as exporting them together |

## Left out

- The database, HTTP and templates are not modelled:
  - querysets, requests, responses and redirects are not modelled;
  - `render`, templates and translation (`gettext_lazy`) are not modelled;
  - tables are sequences, and a response is a small datatype naming the page.
- Concurrency is left out. Two submissions can race between the capacity check and the save. Only sequential submissions are modelled.
- The workbook's styling and formatting are left out:
  - fills, fonts, borders, merged cells, column widths and cell addresses;
  - the `Content-Disposition` header and file names;
  - the `str()` rendering of dates, times and timestamps.

  The sheet keeps the raw values.
- The CSV writer's quoting and escaping are left out, and so is the text rendering of `Decimal`, `bool` and `datetime`. A row is a list of typed cells.
- Database collation for `order_by` is not modelled. Names are compared by code point. Rows with equal names keep table order, whereas the database leaves their order unspecified.
- The order of the course list is a modelling choice. `course_list` has no `order_by` and `Course` has no default ordering (courses/views.py:12), so the source promises no order. The model keeps table order.
- Location ordering by name (`Meta.ordering`) is left out. A course's locations are taken in the order given.
- `TimeField` and `DateTimeField` values are opaque integers. They are only copied.
- The framework's default permission answers are left out. They become the `fallback` argument.
- The e-mail validator and whitespace stripping are left out:
  - the validator's verdict is the `emailWellFormed` field of a submission;
  - submitted text is taken as already stripped.
- The form's label markup and the privacy link are left out (courses/forms.py:11-18). They do not affect validation.
- `Admin.ExportAttendanceList` requires a non-empty selection. On an empty selection the source calls itself again on an empty slice, over and over, until Python raises `RecursionError` (courses/admin.py:122-123). The management interface never runs an action without a selection.
- The `privacy` view (courses/views.py:32-34) only renders a template.
- The `__str__` methods and `session_count_display` are not modelled. The latter only shows `session_count`.
- The group setup command, the schema migration and the URL table are not part of this model:
  - the group setup command (`courses/management/commands/setup_groups.py`) seeds the database;
  - the migration adds bank-detail columns and has no behaviour;
  - the URL table only routes requests. It also refers to a view `impressum` that courses/views.py does not define.
- `Models.SessionCount` counts the days with an unbounded integer. It does not reproduce the source's overflow at `date.max`. That behaviour is modelled separately by `Models.SessionCountAsWritten` (see Findings).

## Findings

| source | as written | input that shows it | evidently intended | confidence | as-written member | corrected member |
|---|---|---|---|---|---|---|
| courses/models.py:84-87 | the loop adds one day after counting every date of the range, including the last; when the end date is `date.max` that addition raises `OverflowError` | a course from 9999-12-31 to 9999-12-31 on Fridays (`FR`) | `session_count()` returns 1 | medium, not executed | Models.SessionCountAsWritten (with Models.DateMaxCourseOverflows) | Models.SessionCount |

=== FILE: admin.dfy ===
/** The management interface of courses/admin.py: which rows an
    instructor (a member of the `Kursleitung` group) or another staff
    member sees and may change, and the two export actions. The answers
    the framework's own permission checks (`super().has_*_permission`)
    would give are passed in as `fallback`. */
module Admin {
  import opened Util
  import opened Calendar
  import opened Models

  // ---------------------------------------------------------------------
  // Roles

  /** The group whose members are restricted to their own courses. */
  const InstructorGroup: string := "Kursleitung"

  datatype Role = Instructor(user: UserId) | Staff(user: UserId)

  /** `request.user.groups.filter(name='Kursleitung').exists()` decides the
      role; being a superuser does not lift the restriction. */
  function RoleOf(user: UserId, groups: set<string>): (r: Role)
    ensures r.user == user
    ensures r.Instructor? <==> InstructorGroup in groups
  {
    if InstructorGroup in groups then Instructor(user) else Staff(user)
  }

  // ---------------------------------------------------------------------
  // CourseAdmin

  function AssignedTo(u: UserId): Course -> bool
  {
    (c: Course) => c.instructorUser == Some(u)
  }

  /** `CourseAdmin.get_queryset`. */
  function VisibleCourses(role: Role, courses: seq<Course>): (vis: seq<Course>)
    ensures role.Staff? ==> vis == courses
    ensures role.Instructor? ==> forall c :: c in vis <==> c in courses && c.instructorUser == Some(role.user)
    ensures role.Instructor? ==> forall c :: multiset(vis)[c] == if c.instructorUser == Some(role.user) then multiset(courses)[c] else 0
  {
    match role
    case Instructor(u) => Filter(courses, AssignedTo(u))
    case Staff(_) => courses
  }

  /** `CourseAdmin.has_change_permission`: an instructor may open the list
      and change a course assigned to them (the source's comment claims
      they may change nothing, the code says otherwise). */
  function CourseChangePermission(role: Role, obj: Option<Course>, fallback: bool): (ok: bool)
    ensures role.Staff? ==> ok == fallback
    ensures role.Instructor? && obj.None? ==> ok
    ensures role.Instructor? && obj.Some? ==> (ok <==> obj.value.instructorUser == Some(role.user))
  {
    match role
    case Instructor(u) => obj.None? || obj.value.instructorUser == Some(u)
    case Staff(_) => fallback
  }

  /** `CourseAdmin.has_delete_permission`: instructors never delete. */
  function CourseDeletePermission(role: Role, obj: Option<Course>, fallback: bool): (ok: bool)
    ensures role.Instructor? ==> !ok
    ensures role.Staff? ==> ok == fallback
  {
    match role
    case Instructor(_) => false
    case Staff(_) => fallback
  }

  /** Row filtering and object permissions agree: an instructor may change a
      course of the table exactly when the course is on their list. */
  lemma InstructorChangesExactlyVisibleCourses(u: UserId, courses: seq<Course>, c: Course, fallback: bool)
    requires c in courses
    ensures CourseChangePermission(Instructor(u), Some(c), fallback) <==> c in VisibleCourses(Instructor(u), courses)
  {
  }

  /** Defence in depth: a course hidden from an instructor's list can be
      neither changed nor deleted by them, even when addressed directly. */
  lemma HiddenCourseIsUntouchable(u: UserId, courses: seq<Course>, c: Course, fallback: bool)
    requires c !in VisibleCourses(Instructor(u), courses)
    ensures c in courses ==> !CourseChangePermission(Instructor(u), Some(c), fallback)
    ensures !CourseDeletePermission(Instructor(u), Some(c), fallback)
  {
  }

  // ---------------------------------------------------------------------
  // RegistrationAdmin

  /** `course__instructor_user=u`: the registration's course is assigned to `u`. */
  predicate CourseAssigned(courses: seq<Course>, id: CourseId, u: UserId)
  {
    FindCourse(courses, id).Some? && FindCourse(courses, id).value.instructorUser == Some(u)
  }

  function OfAssignedCourse(courses: seq<Course>, u: UserId): Registration -> bool
  {
    (r: Registration) => CourseAssigned(courses, r.course, u)
  }

  /** `RegistrationAdmin.get_queryset`. */
  function VisibleRegistrations(role: Role, courses: seq<Course>, regs: seq<Registration>): (vis: seq<Registration>)
    ensures role.Staff? ==> vis == regs
    ensures role.Instructor? ==> forall r :: r in vis <==> r in regs && CourseAssigned(courses, r.course, role.user)
    ensures role.Instructor? ==> forall r :: multiset(vis)[r] == if CourseAssigned(courses, r.course, role.user) then multiset(regs)[r] else 0
  {
    match role
    case Instructor(u) => Filter(regs, OfAssignedCourse(courses, u))
    case Staff(_) => regs
  }

  /** The two lists fit together: an instructor sees exactly the
      registrations whose course is on their course list. */
  lemma InstructorRegistrationsFollowCourses(u: UserId, courses: seq<Course>, regs: seq<Registration>, r: Registration)
    requires UniqueCourseIds(courses)
    ensures r in VisibleRegistrations(Instructor(u), courses, regs)
        <==> r in regs && exists c :: c in VisibleCourses(Instructor(u), courses) && c.id == r.course
  {
    var vc := VisibleCourses(Instructor(u), courses);
    if r in regs && exists c :: c in vc && c.id == r.course {
      var c :| c in vc && c.id == r.course;
      FindCourseUnique(courses, c);
    }
    if r in VisibleRegistrations(Instructor(u), courses, regs) {
      var c := FindCourse(courses, r.course).value;
      assert c in vc;
    }
  }

  /** `RegistrationAdmin.has_module_permission`. */
  function RegistrationModulePermission(role: Role, fallback: bool): (ok: bool)
    ensures role.Instructor? ==> ok
    ensures role.Staff? ==> ok == fallback
  {
    match role
    case Instructor(_) => true
    case Staff(_) => fallback
  }

  /** `RegistrationAdmin.has_view_permission`. */
  function RegistrationViewPermission(role: Role, obj: Option<Registration>, fallback: bool): (ok: bool)
    ensures role.Instructor? ==> ok
    ensures role.Staff? ==> ok == fallback
  {
    match role
    case Instructor(_) => true
    case Staff(_) => fallback
  }

  /** `RegistrationAdmin.has_add_permission`: registrations come only from
      the public form, whoever asks. */
  function RegistrationAddPermission(role: Role): (ok: bool)
    ensures !ok
  {
    false
  }

  /** `RegistrationAdmin.has_change_permission`: an instructor may open the
      list but change no registration (a model instance is always truthy). */
  function RegistrationChangePermission(role: Role, obj: Option<Registration>, fallback: bool): (ok: bool)
    ensures role.Instructor? ==> (ok <==> obj.None?)
    ensures role.Staff? ==> ok == fallback
  {
    match role
    case Instructor(_) => if obj.Some? then false else true
    case Staff(_) => fallback
  }

  /** `RegistrationAdmin.has_delete_permission`. */
  function RegistrationDeletePermission(role: Role, obj: Option<Registration>, fallback: bool): (ok: bool)
    ensures role.Instructor? ==> !ok
    ensures role.Staff? ==> ok == fallback
  {
    match role
    case Instructor(_) => false
    case Staff(_) => fallback
  }

  /** An instructor is read-only on every registration: they may see it but
      not add, change or delete it, whatever the framework would allow. */
  lemma InstructorReadOnlyOnRegistrations(u: UserId, r: Registration, fallback: bool)
    ensures RegistrationModulePermission(Instructor(u), fallback)
    ensures RegistrationViewPermission(Instructor(u), Some(r), fallback)
    ensures !RegistrationAddPermission(Instructor(u))
    ensures !RegistrationChangePermission(Instructor(u), Some(r), fallback)
    ensures !RegistrationDeletePermission(Instructor(u), Some(r), fallback)
  {
  }

  /** The setting of courses/tests.py: two instructors with one course and
      one registration each. */
  function ExampleCourse(id: CourseId, name: string): Course
  {
    Course(id, name, "", [], None, None, 0, 0, [], 1, 1000, 2000, false, "", Some(id))
  }

  function ExampleRegistration(id: RegistrationId, course: CourseId, first: string, last: string, status: Status): Registration
  {
    Registration(id, course, first, last, "", "DE000", "", first + " " + last, true, false, false, status, 0)
  }

  /** The first instructor's course list shows "Course 1" and not "Course 2". */
  lemma InstructorCourseListExample()
    ensures var courses := [ExampleCourse(1, "Course 1"), ExampleCourse(2, "Course 2")];
            VisibleCourses(RoleOf(1, {InstructorGroup}), courses) == [ExampleCourse(1, "Course 1")]
  {
    var c1, c2 := ExampleCourse(1, "Course 1"), ExampleCourse(2, "Course 2");
    assert RoleOf(1, {InstructorGroup}) == Instructor(1);
    assert [c1, c2][1..] == [c2] && [c2][1..] == [];
    assert AssignedTo(1)(c1) && !AssignedTo(1)(c2);
    assert Filter([c2], AssignedTo(1)) == [];
  }

  /** The first instructor's registration list shows "Foo" and not "Baz". */
  lemma InstructorRegistrationListExample()
    ensures var courses := [ExampleCourse(1, "Course 1"), ExampleCourse(2, "Course 2")];
            var foo := ExampleRegistration(1, 1, "Foo", "Bar", Confirmed);
            var baz := ExampleRegistration(2, 2, "Baz", "Qux", Confirmed);
            VisibleRegistrations(RoleOf(1, {InstructorGroup}), courses, [foo, baz]) == [foo]
  {
    var courses := [ExampleCourse(1, "Course 1"), ExampleCourse(2, "Course 2")];
    var foo := ExampleRegistration(1, 1, "Foo", "Bar", Confirmed);
    var baz := ExampleRegistration(2, 2, "Baz", "Qux", Confirmed);
    assert RoleOf(1, {InstructorGroup}) == Instructor(1);
    assert courses[1..] == [ExampleCourse(2, "Course 2")];
    assert FindCourse(courses, 1) == Some(ExampleCourse(1, "Course 1"));
    assert FindCourse(courses, 2) == Some(ExampleCourse(2, "Course 2"));
    assert [foo, baz][1..] == [baz] && [baz][1..] == [];
    assert OfAssignedCourse(courses, 1)(foo) && !OfAssignedCourse(courses, 1)(baz);
    assert Filter([baz], OfAssignedCourse(courses, 1)) == [];
  }

  // ---------------------------------------------------------------------
  // Attendance export

  /** `order_by('last_name', 'first_name')`: `a` may come before `b`. */
  predicate NameLe(a: Registration, b: Registration)
  {
    if a.lastName == b.lastName then LexLe(a.firstName, b.firstName) else LexLe(a.lastName, b.lastName)
  }

  lemma NameLeTotal(a: Registration, b: Registration)
    ensures NameLe(a, b) || NameLe(b, a)
  {
    LexLeTotal(a.firstName, b.firstName);
    LexLeTotal(a.lastName, b.lastName);
  }

  lemma NameLeTransitive(a: Registration, b: Registration, c: Registration)
    requires NameLe(a, b) && NameLe(b, c)
    ensures NameLe(a, c)
  {
    if a.lastName == b.lastName && b.lastName == c.lastName {
      LexLeTransitive(a.firstName, b.firstName, c.firstName);
    } else if a.lastName == c.lastName {
      LexLeAntisymmetric(a.lastName, b.lastName);
    } else if a.lastName != b.lastName && b.lastName != c.lastName {
      LexLeTransitive(a.lastName, b.lastName, c.lastName);
    }
  }

  /** Two registrations that may each precede the other carry the same
      names: the order ranks registrations by their names alone. */
  lemma NameLeAntisymmetric(a: Registration, b: Registration)
    requires NameLe(a, b) && NameLe(b, a)
    ensures a.lastName == b.lastName && a.firstName == b.firstName
  {
    if a.lastName == b.lastName {
      LexLeAntisymmetric(a.firstName, b.firstName);
    } else {
      LexLeAntisymmetric(a.lastName, b.lastName);
    }
  }

  predicate SortedByName(s: seq<Registration>)
  {
    forall i, j :: 0 <= i < j < |s| ==> NameLe(s[i], s[j])
  }

  /** An element that may precede every element of a sorted list may be
      put in front of it. */
  lemma PrependSorted(x: Registration, s: seq<Registration>)
    requires SortedByName(s)
    requires forall z :: z in s ==> NameLe(x, z)
    ensures SortedByName([x] + s)
  {
    forall i, j | 0 <= i < j < |[x] + s|
      ensures NameLe(([x] + s)[i], ([x] + s)[j])
    {
      assert ([x] + s)[j] == s[j - 1];
      if i > 0 {
        assert ([x] + s)[i] == s[i - 1];
      }
    }
  }

  /** What may precede the head of a sorted list may precede all of it. */
  lemma BelowHead(x: Registration, s: seq<Registration>)
    requires SortedByName(s) && |s| > 0 && NameLe(x, s[0])
    ensures forall z :: z in s ==> NameLe(x, z)
  {
    forall z | z in s
      ensures NameLe(x, z)
    {
      var j :| 0 <= j < |s| && s[j] == z;
      if j > 0 {
        NameLeTransitive(x, s[0], z);
      }
    }
  }

  /** Places `x` before the first element it may precede. */
  function InsertByName(x: Registration, s: seq<Registration>): (r: seq<Registration>)
    requires SortedByName(s)
    ensures SortedByName(r)
    ensures multiset(r) == multiset(s) + multiset{x}
  {
    if |s| == 0 then [x]
    else if NameLe(x, s[0]) then
      BelowHead(x, s);
      PrependSorted(x, s);
      [x] + s
    else
      assert s == [s[0]] + s[1..];
      var rest := InsertByName(x, s[1..]);
      NameLeTotal(x, s[0]);
      assert forall z :: z in rest ==> NameLe(s[0], z) by {
        forall z | z in rest
          ensures NameLe(s[0], z)
        {
          assert z in multiset(rest);
          if z != x {
            assert z in multiset(s[1..]);
          }
        }
      }
      PrependSorted(s[0], rest);
      [s[0]] + rest
  }

  /** The database's ordering of a result set, as an insertion sort: rows
      with equal names keep their table order. */
  function SortByName(s: seq<Registration>): (r: seq<Registration>)
    ensures SortedByName(r)
    ensures multiset(r) == multiset(s)
  {
    if |s| == 0 then []
    else
      assert s == [s[0]] + s[1..];
      InsertByName(s[0], SortByName(s[1..]))
  }

  /** The participants listed for course `c`: its confirmed registrations,
      ordered by last name and then first name. */
  function Participants(c: Course, regs: seq<Registration>): (ps: seq<Registration>)
    ensures SortedByName(ps)
    ensures forall x :: multiset(ps)[x] == if x.course == c.id && x.status == Confirmed then multiset(regs)[x] else 0
    ensures |ps| == CurrentRegistrations(c, regs)
  {
    var conf := ConfirmedOf(regs, c.id);
    var ps := SortByName(conf);
    assert |ps| == |multiset(ps)| == |multiset(conf)| == |conf|;
    ps
  }

  /** The check-box glyph of the "present" column. */
  const Checkbox: string := "☐"

  /** One table row: first name, last name, e-mail, status label, check box. */
  function AttendanceRow(r: Registration): (row: seq<string>)
    ensures |row| == 5
    ensures row[0] == r.firstName && row[1] == r.lastName && row[2] == r.email
    ensures row[3] == StatusLabel(r.status) && row[4] == Checkbox
  {
    [r.firstName, r.lastName, r.email, StatusLabel(r.status), Checkbox]
  }

  /** The weekdays cell: the codes joined by ", ", or "-" when none. */
  function WeekdaysCell(days: seq<Weekday>): (cell: string)
    ensures |days| == 0 ==> cell == "-"
    ensures |days| > 0 ==> ParseCodes(cell) == Some(days)
  {
    if |days| > 0 then
      JoinCodesRoundTrip(days);
      Join(Codes(days), ", ")
    else "-"
  }

  function LocationNames(locs: seq<Location>): (names: seq<string>)
    ensures |names| == |locs|
    ensures forall i :: 0 <= i < |locs| ==> names[i] == locs[i].name
  {
    if |locs| == 0 then [] else [locs[0].name] + LocationNames(locs[1..])
  }

  /** `cell` is the locations cell of `locs`: "-" when there are none, and
      otherwise exactly their names joined by ", ". */
  predicate ShowsLocations(cell: string, locs: seq<Location>)
  {
    if |locs| == 0 then cell == "-" else JoinedAs(cell, LocationNames(locs), ", ")
  }

  /** The locations cell of the attendance workbook. */
  function LocationsCell(locs: seq<Location>): (cell: string)
    ensures ShowsLocations(cell, locs)
  {
    if |locs| > 0 then
      var names := LocationNames(locs);
      JoinLaysOut(names, ", ");
      Join(names, ", ")
    else "-"
  }

  /** `ShowsLocations` pins the cell down: the only text it accepts is the
      one `LocationsCell` computes. */
  lemma ShowsLocationsExactly(cell: string, locs: seq<Location>)
    requires ShowsLocations(cell, locs)
    ensures cell == LocationsCell(locs)
  {
    if |locs| > 0 {
      JoinedAsUnique(cell, LocationNames(locs), ", ");
    }
  }

  /** The content of the attendance workbook (styling left out). */
  datatype AttendanceSheet = AttendanceSheet(
    sheetTitle: string,
    title: string,
    infoHeader: seq<string>,
    dates: (Option<Date>, Option<Date>),
    startTime: TimeOfDay,
    endTime: TimeOfDay,
    weekdays: string,
    locations: string,
    tableHeader: seq<string>,
    rows: seq<seq<string>>)

  /** The table body for a list of participants, one row each. */
  function AttendanceRows(ps: seq<Registration>): (rows: seq<seq<string>>)
    ensures |rows| == |ps|
    ensures forall i :: 0 <= i < |ps| ==> rows[i] == AttendanceRow(ps[i])
  {
    if |ps| == 0 then [] else [AttendanceRow(ps[0])] + AttendanceRows(ps[1..])
  }

  /** Every listed participant is a confirmed registration of the course. */
  lemma ParticipantsConfirmed(c: Course, regs: seq<Registration>)
    ensures forall i :: 0 <= i < |Participants(c, regs)| ==>
              Participants(c, regs)[i].status == Confirmed && Participants(c, regs)[i].course == c.id
  {
    var ps := Participants(c, regs);
    forall i | 0 <= i < |ps|
      ensures ps[i].status == Confirmed && ps[i].course == c.id
    {
      assert ps[i] in multiset(ps);
    }
  }

  /** The participant table of course `c`: one row per confirmed
      registration, in name order, each showing the confirmed label and an
      empty check box. */
  function ParticipantTable(c: Course, regs: seq<Registration>): (rows: seq<seq<string>>)
    ensures |rows| == CurrentRegistrations(c, regs)
    ensures forall i :: 0 <= i < |rows| ==> rows[i] == AttendanceRow(Participants(c, regs)[i])
    ensures forall i :: 0 <= i < |rows| ==> |rows[i]| == 5 && rows[i][3] == StatusLabel(Confirmed) && rows[i][4] == Checkbox
  {
    var ps := Participants(c, regs);
    ParticipantsConfirmed(c, regs);
    var rows := AttendanceRows(ps);
    assert forall i :: 0 <= i < |rows| ==> rows[i][3] == StatusLabel(Confirmed) && rows[i][4] == Checkbox by {
      forall i | 0 <= i < |rows|
        ensures rows[i][3] == StatusLabel(Confirmed) && rows[i][4] == Checkbox
      {
        assert rows[i] == AttendanceRow(ps[i]);
        assert ps[i].status == Confirmed;
      }
    }
    rows
  }

  /** The workbook for one course. */
  function AttendanceSheetFor(c: Course, regs: seq<Registration>): (s: AttendanceSheet)
    ensures s.title == "Teilnehmerliste: " + c.name
    ensures s.dates == (c.startDate, c.endDate)
    ensures s.tableHeader == ["Vorname", "Nachname", "E-Mail", "Status", "Anwesend"]
    ensures s.rows == ParticipantTable(c, regs)
    ensures |c.days| > 0 ==> ParseCodes(s.weekdays) == Some(c.days)
    ensures |c.days| == 0 ==> s.weekdays == "-"
    ensures ShowsLocations(s.locations, c.locations)
    ensures s.sheetTitle == "Teilnehmerliste"
    ensures s.infoHeader == ["Datum", "Beginn", "Ende", "Wochentage", "Ort"]
    ensures s.startTime == c.startTime && s.endTime == c.endTime
  {
    AttendanceSheet(
      "Teilnehmerliste",
      "Teilnehmerliste: " + c.name,
      ["Datum", "Beginn", "Ende", "Wochentage", "Ort"],
      (c.startDate, c.endDate),
      c.startTime,
      c.endTime,
      WeekdaysCell(c.days),
      LocationsCell(c.locations),
      ["Vorname", "Nachname", "E-Mail", "Status", "Anwesend"],
      ParticipantTable(c, regs))
  }

  /** `CourseAdmin.export_attendance_list` on a non-empty selection: the
      loop returns on its first course, so only that one is exported. */
  function ExportAttendanceList(regs: seq<Registration>, selection: seq<Course>): (s: AttendanceSheet)
    requires |selection| > 0
    ensures s.title == "Teilnehmerliste: " + selection[0].name
    ensures s.dates == (selection[0].startDate, selection[0].endDate)
    ensures |s.rows| == CurrentRegistrations(selection[0], regs)
    ensures forall i :: 0 <= i < |s.rows| ==> s.rows[i] == AttendanceRow(Participants(selection[0], regs)[i])
    ensures s.tableHeader == ["Vorname", "Nachname", "E-Mail", "Status", "Anwesend"]
    ensures |selection[0].days| > 0 ==> ParseCodes(s.weekdays) == Some(selection[0].days)
    ensures |selection[0].days| == 0 ==> s.weekdays == "-"
    ensures ShowsLocations(s.locations, selection[0].locations)
  {
    AttendanceSheetFor(selection[0], regs)
  }

  /** Courses selected after the first do not affect the export. */
  lemma OnlyFirstCourseExported(regs: seq<Registration>, selection: seq<Course>, more: seq<Course>)
    requires |selection| > 0
    ensures ExportAttendanceList(regs, selection + more) == ExportAttendanceList(regs, [selection[0]])
  {
  }

  /** The attendance list names exactly the confirmed participants: every
      confirmed registration of the course appears, and nothing else. */
  lemma AttendanceListsConfirmedOnly(c: Course, regs: seq<Registration>, r: Registration)
    ensures r in Participants(c, regs) <==> r in regs && r.course == c.id && r.status == Confirmed
  {
    var ps := Participants(c, regs);
    assert r in ps <==> r in multiset(ps);
    assert r in regs <==> r in multiset(regs);
  }

  /** The export scenario: two confirmed registrations and one waitlisted
      one; the table lists the confirmed two, "Bar" before "Qux". */
  lemma AttendanceExample()
    ensures var bar := ExampleRegistration(1, 1, "Foo", "Bar", Confirmed);
            var qux := ExampleRegistration(2, 1, "Baz", "Qux", Confirmed);
            var wait := ExampleRegistration(3, 1, "Wai", "Ting", Waitlist);
            Participants(ExampleCourse(1, "Course 1"), [qux, wait, bar]) == [bar, qux]
  {
    var bar := ExampleRegistration(1, 1, "Foo", "Bar", Confirmed);
    var qux := ExampleRegistration(2, 1, "Baz", "Qux", Confirmed);
    var wait := ExampleRegistration(3, 1, "Wai", "Ting", Waitlist);
    ExampleConfirmed(bar, qux, wait);
    ExampleSorted(bar, qux);
  }

  lemma ExampleConfirmed(bar: Registration, qux: Registration, wait: Registration)
    requires bar.course == 1 && qux.course == 1 && wait.course == 1
    requires bar.status == Confirmed && qux.status == Confirmed && wait.status == Waitlist
    ensures ConfirmedOf([qux, wait, bar], 1) == [qux, bar]
  {
    var p := ConfirmedFor(1);
    assert p(qux) && !p(wait) && p(bar);
    FilterThree(qux, wait, bar, p);
  }

  lemma FilterThree<T(!new)>(a: T, b: T, c: T, p: T -> bool)
    requires p(a) && !p(b) && p(c)
    ensures Filter([a, b, c], p) == [a, c]
  {
    assert [a, b, c][1..] == [b, c];
    assert [b, c][1..] == [c];
    assert [c][1..] == [];
    assert Filter([c], p) == [c];
    assert Filter([b, c], p) == [c];
  }

  lemma ExampleSorted(bar: Registration, qux: Registration)
    requires bar.lastName == "Bar" && qux.lastName == "Qux"
    ensures SortByName([qux, bar]) == [bar, qux]
  {
    assert [qux, bar][1..] == [bar];
    assert [bar][1..] == [];
    assert SortByName([bar]) == [bar];
    assert !LexLe("Qux", "Bar");
    assert !NameLe(qux, bar);
    assert InsertByName(qux, [bar]) == [bar, qux];
  }

  // ---------------------------------------------------------------------
  // CSV export

  /** A CSV field before the writer renders it as text. */
  datatype Cell = Text(text: string) | Flag(flag: bool) | Amount(amount: real) | Stamp(time: Timestamp)

  const CsvFieldNames: seq<string> :=
    ["course", "first_name", "last_name", "email", "status", "terms_accepted", "price", "created"]

  function HeaderRow(names: seq<string>): (row: seq<Cell>)
    ensures |row| == |names|
    ensures forall i :: 0 <= i < |names| ==> row[i] == Text(names[i])
  {
    if |names| == 0 then [] else [Text(names[0])] + HeaderRow(names[1..])
  }

  /** One data row: course name, first name, last name, e-mail, status code,
      terms flag, price, creation time. */
  function CsvRow(r: Registration, c: Course): (row: seq<Cell>)
    ensures |row| == |CsvFieldNames|
  {
    [Text(c.name), Text(r.firstName), Text(r.lastName), Text(r.email),
     Text(StatusCode(r.status)), Flag(r.termsAccepted), Amount(Price(r, c)), Stamp(r.created)]
  }

  /** A data row carries the course name, the names and e-mail address,
      the status code (from which the status can be read back), the terms
      flag, the price and the creation time, in that order. */
  lemma CsvRowContents(r: Registration, c: Course)
    ensures CsvRow(r, c)[0] == Text(c.name)
    ensures CsvRow(r, c)[1] == Text(r.firstName) && CsvRow(r, c)[2] == Text(r.lastName)
    ensures CsvRow(r, c)[3] == Text(r.email)
    ensures CsvRow(r, c)[4].Text? && ParseStatus(CsvRow(r, c)[4].text) == Some(r.status)
    ensures CsvRow(r, c)[5] == Flag(r.termsAccepted)
    ensures CsvRow(r, c)[6] == Amount(Price(r, c))
    ensures CsvRow(r, c)[7] == Stamp(r.created)
  {
    StatusCodeRoundTrip(r.status);
  }

  /** The value a column of the export takes for registration `r` of course
      `c`, looked up by the column's header name. */
  function CsvField(name: string, r: Registration, c: Course): Option<Cell>
  {
    if name == "course" then Some(Text(c.name))
    else if name == "first_name" then Some(Text(r.firstName))
    else if name == "last_name" then Some(Text(r.lastName))
    else if name == "email" then Some(Text(r.email))
    else if name == "status" then Some(Text(StatusCode(r.status)))
    else if name == "terms_accepted" then Some(Flag(r.termsAccepted))
    else if name == "price" then Some(Amount(Price(r, c)))
    else if name == "created" then Some(Stamp(r.created))
    else None
  }

  /** Header and data agree column by column: every cell of a data row is
      the value named by the header above it. */
  lemma CsvRowMatchesHeader(r: Registration, c: Course)
    ensures forall j :: 0 <= j < |CsvFieldNames| ==> CsvField(CsvFieldNames[j], r, c) == Some(CsvRow(r, c)[j])
  {
  }

  /** Every selected registration's course is in the table. */
  predicate CoursesKnown(courses: seq<Course>, selection: seq<Registration>)
  {
    forall i :: 0 <= i < |selection| ==> FindCourse(courses, selection[i].course).Some?
  }

  function CsvRows(courses: seq<Course>, selection: seq<Registration>): (rows: seq<seq<Cell>>)
    requires CoursesKnown(courses, selection)
    ensures |rows| == |selection|
    ensures forall i :: 0 <= i < |rows| ==> |rows[i]| == |CsvFieldNames|
    ensures forall i :: 0 <= i < |selection| ==>
              rows[i] == CsvRow(selection[i], FindCourse(courses, selection[i].course).value)
  {
    if |selection| == 0 then []
    else
      [CsvRow(selection[0], FindCourse(courses, selection[0].course).value)]
      + CsvRows(courses, selection[1..])
  }

  /** `RegistrationAdmin.export_as_csv`: the header and then one row per
      selected registration, in selection order. */
  function ExportCsv(courses: seq<Course>, selection: seq<Registration>): (rows: seq<seq<Cell>>)
    requires CoursesKnown(courses, selection)
    ensures |rows| == |selection| + 1
    ensures rows[0] == HeaderRow(CsvFieldNames)
    ensures rows[1..] == CsvRows(courses, selection)
  {
    [HeaderRow(CsvFieldNames)] + CsvRows(courses, selection)
  }

  /** The exported table is rectangular: the header and every data row have
      one cell per field name. */
  lemma ExportCsvRectangular(courses: seq<Course>, selection: seq<Registration>)
    requires CoursesKnown(courses, selection)
    ensures forall i :: 0 <= i < |ExportCsv(courses, selection)| ==>
              |ExportCsv(courses, selection)[i]| == |CsvFieldNames|
  {
    var rows := ExportCsv(courses, selection);
    var body := CsvRows(courses, selection);
    forall i | 0 <= i < |rows|
      ensures |rows[i]| == |CsvFieldNames|
    {
      if i > 0 {
        assert rows[i] == body[i - 1];
      }
    }
  }

  /** Exporting two selections one after the other gives the same data rows
      as exporting them together. */
  lemma {:induction false} CsvRowsAppend(courses: seq<Course>, a: seq<Registration>, b: seq<Registration>)
    requires CoursesKnown(courses, a) && CoursesKnown(courses, b)
    ensures CoursesKnown(courses, a + b)
    ensures CsvRows(courses, a + b) == CsvRows(courses, a) + CsvRows(courses, b)
  {
    assert CoursesKnown(courses, a + b) by {
      forall i | 0 <= i < |a + b|
        ensures FindCourse(courses, (a + b)[i].course).Some?
      {
        if i >= |a| {
          assert (a + b)[i] == b[i - |a|];
        }
      }
    }
    if |a| > 0 {
      assert (a + b)[1..] == a[1..] + b;
      CsvRowsAppend(courses, a[1..], b);
    } else {
      assert a + b == b;
    }
  }
}

=== FILE: calendar.dfy ===
/** Calendar dates and the weekday codes a course is scheduled on
    (courses/models.py `week_days` and the `day_map` of `session_count`).
    A date is its proleptic Gregorian day ordinal, as Python's
    `date.toordinal()` returns it. */
module Calendar {
  import opened Util

  /** Ordinals of `date.min` (0001-01-01) and `date.max` (9999-12-31). */
  const MinOrdinal: int := 1
  const MaxOrdinal: int := 3652059

  type Date = d: int | MinOrdinal <= d <= MaxOrdinal witness MinOrdinal

  /** Python's `date.weekday()`: Monday is 0 and Sunday is 6; ordinal 1 is a
      Monday, so the index is `(ordinal - 1) mod 7`. */
  function WeekdayIndex(d: int): (i: int)
    ensures 0 <= i < 7
  {
    (d + 6) % 7
  }

  /** The index is anchored at `date.min`, a Monday, and advances by one,
      modulo a week, from each day to the next; 2024-01-01 (ordinal 738886)
      is a Monday too. */
  lemma WeekdayIndexSteps(d: int)
    ensures WeekdayIndex(MinOrdinal) == 0
    ensures WeekdayIndex(738886) == 0
    ensures WeekdayIndex(d + 1) == (WeekdayIndex(d) + 1) % 7
    ensures WeekdayIndex(d + 7) == WeekdayIndex(d)
  {
  }

  /** The seven choices of the `days` multi-select field. */
  datatype Weekday = MO | TU | WE | TH | FR | SA | SU

  /** The stored code of a weekday choice. */
  function Code(w: Weekday): (code: string)
    ensures |code| == 2
  {
    match w
    case MO => "MO"
    case TU => "TU"
    case WE => "WE"
    case TH => "TH"
    case FR => "FR"
    case SA => "SA"
    case SU => "SU"
  }

  /** `day_map[code]`: the `date.weekday()` value a code stands for. */
  function Index(w: Weekday): (i: int)
    ensures 0 <= i < 7
  {
    match w
    case MO => 0
    case TU => 1
    case WE => 2
    case TH => 3
    case FR => 4
    case SA => 5
    case SU => 6
  }

  /** The code with a given `date.weekday()` value. */
  function FromIndex(i: int): (w: Weekday)
    requires 0 <= i < 7
    ensures Index(w) == i
  {
    if i == 0 then MO else if i == 1 then TU else if i == 2 then WE
    else if i == 3 then TH else if i == 4 then FR else if i == 5 then SA else SU
  }

  /** The weekday choice a stored code denotes, if any. */
  function FromCode(code: string): (w: Option<Weekday>)
    ensures w.Some? ==> Code(w.value) == code
    ensures forall d: Weekday :: Code(d) == code ==> w == Some(d)
  {
    if code == "MO" then Some(MO) else if code == "TU" then Some(TU)
    else if code == "WE" then Some(WE) else if code == "TH" then Some(TH)
    else if code == "FR" then Some(FR) else if code == "SA" then Some(SA)
    else if code == "SU" then Some(SU) else None
  }

  /** The `date.weekday()` values named by a list of codes
      (`{day_map[d] for d in self.days}`). */
  function Desired(days: seq<Weekday>): (s: set<int>)
    ensures forall i :: i in s <==> exists w :: w in days && Index(w) == i
    ensures |days| == 0 <==> s == {}
  {
    var s := set w | w in days :: Index(w);
    assert |days| > 0 ==> Index(days[0]) in s;
    s
  }

  /** The codes of a list of weekdays, in order. */
  function Codes(days: seq<Weekday>): (codes: seq<string>)
    ensures |codes| == |days|
    ensures forall i :: 0 <= i < |days| ==> codes[i] == Code(days[i])
  {
    if |days| == 0 then [] else [Code(days[0])] + Codes(days[1..])
  }

  /** Reads back a `", "`-joined list of weekday codes. */
  function ParseCodes(s: string): (r: Option<seq<Weekday>>)
    decreases |s|
  {
    if |s| < 2 then None
    else
      match FromCode(s[..2])
      case None => None
      case Some(w) =>
        if |s| == 2 then Some([w])
        else if |s| > 4 && s[2..4] == ", " then
          match ParseCodes(s[4..])
          case None => None
          case Some(rest) => Some([w] + rest)
        else None
  }

  /** Parsing a code followed by `", "` and more text. */
  lemma ParseCodesCons(w: Weekday, t: string)
    requires |t| >= 2
    ensures ParseCodes(Code(w) + ", " + t)
         == match ParseCodes(t) case None => None case Some(rest) => Some([w] + rest)
  {
    var s := Code(w) + ", " + t;
    assert s[..2] == Code(w);
    assert FromCode(s[..2]) == Some(w);
    assert s[2..4] == ", ";
    assert s[4..] == t;
  }

  /** Joining a non-empty list of codes with `", "` loses nothing: the list
      can be parsed back from the joined string. */
  lemma {:induction false} JoinCodesRoundTrip(days: seq<Weekday>)
    requires |days| > 0
    ensures ParseCodes(Join(Codes(days), ", ")) == Some(days)
  {
    var head := Code(days[0]);
    if |days| == 1 {
      assert Join(Codes(days), ", ") == head;
      assert head[..2] == head;
      assert FromCode(head) == Some(days[0]);
      assert ParseCodes(head) == Some([days[0]]);
      assert days == [days[0]];
    } else {
      var rest := days[1..];
      assert Codes(days)[1..] == Codes(rest);
      var t := Join(Codes(rest), ", ");
      assert Join(Codes(days), ", ") == head + ", " + t;
      JoinLength(Codes(rest), ", ");
      assert |t| >= 2;
      ParseCodesCons(days[0], t);
      JoinCodesRoundTrip(rest);
      assert days == [days[0]] + rest;
    }
  }

  /** With all seven codes selected, every date is a session date. */
  lemma AllWeekdaysDesired(days: seq<Weekday>)
    requires forall w: Weekday :: w in days
    ensures forall d: int :: WeekdayIndex(d) in Desired(days)
  {
    forall d: int
      ensures WeekdayIndex(d) in Desired(days)
    {
      var w := FromIndex(WeekdayIndex(d));
      assert w in days;
    }
  }
}

=== FILE: models.dfy ===
/** The domain model of courses/models.py: locations, courses and
    registrations, and the rules computed from them (capacity, price,
    session count, date validation). The database is a `Store` of two
    tables held as sequences in table order. */
module Models {
  import opened Util
  import opened Calendar

  type CourseId = nat
  type RegistrationId = nat
  type UserId = nat

  /** A `DecimalField(max_digits=6, decimal_places=2)` amount in cents. */
  type Cents = int

  /** A `TimeField` or `DateTimeField` value; only compared, never computed with. */
  type TimeOfDay = int
  type Timestamp = int

  datatype Location = Location(name: string)

  datatype Course = Course(
    id: CourseId,
    name: string,
    description: string,
    locations: seq<Location>,
    startDate: Option<Date>,
    endDate: Option<Date>,
    startTime: TimeOfDay,
    endTime: TimeOfDay,
    days: seq<Weekday>,
    maxParticipants: nat,
    priceMember: Cents,
    priceNonMember: Cents,
    allowHalf: bool,
    instructor: string,
    instructorUser: Option<UserId>)

  /** `Registration.STATUS_CHOICES`. */
  datatype Status = Confirmed | Waitlist

  /** The value stored in the `status` column (`max_length=10`). */
  function StatusCode(s: Status): (code: string)
    ensures 0 < |code| <= 10
  {
    match s
    case Confirmed => "CONFIRMED"
    case Waitlist => "WAITLIST"
  }

  /** `get_status_display()`: the human-readable label of a status. */
  function StatusLabel(s: Status): string
  {
    match s
    case Confirmed => "Bestätigt"
    case Waitlist => "Warteliste"
  }

  /** The two statuses are displayed under different labels, so the label
      in a listing tells them apart. */
  lemma StatusLabelsDistinct(s: Status, t: Status)
    ensures StatusLabel(s) == StatusLabel(t) <==> s == t
  {
  }

  /** The status a stored code denotes, if any. */
  function ParseStatus(code: string): (s: Option<Status>)
    ensures s.Some? ==> StatusCode(s.value) == code
  {
    if code == "CONFIRMED" then Some(Confirmed)
    else if code == "WAITLIST" then Some(Waitlist)
    else None
  }

  /** Distinct statuses are stored as distinct codes, so the stored code
      determines the status. */
  lemma StatusCodeRoundTrip(s: Status)
    ensures ParseStatus(StatusCode(s)) == Some(s)
  {
  }

  /** The default of the `status` field. */
  const DefaultStatus: Status := Confirmed

  datatype Registration = Registration(
    id: RegistrationId,
    course: CourseId,
    firstName: string,
    lastName: string,
    email: string,
    iban: string,
    bic: string,
    accountHolder: string,
    termsAccepted: bool,
    isMember: bool,
    halfCourse: bool,
    status: Status,
    created: Timestamp)

  /** The two tables the core reads and writes. */
  datatype Store = Store(courses: seq<Course>, registrations: seq<Registration>)

  /** Course primary keys are unique. */
  predicate UniqueCourseIds(courses: seq<Course>)
  {
    forall i, j :: 0 <= i < j < |courses| ==> courses[i].id != courses[j].id
  }

  /** `Course.objects.get(id=id)`, or nothing when no row has that key. */
  function FindCourse(courses: seq<Course>, id: CourseId): (r: Option<Course>)
    ensures r.Some? ==> r.value in courses && r.value.id == id
    ensures r.None? <==> forall c :: c in courses ==> c.id != id
  {
    if |courses| == 0 then None
    else if courses[0].id == id then Some(courses[0])
    else FindCourse(courses[1..], id)
  }

  /** With unique keys, looking a course up by its own key finds it. */
  lemma FindCourseUnique(courses: seq<Course>, c: Course)
    requires UniqueCourseIds(courses)
    requires c in courses
    ensures FindCourse(courses, c.id) == Some(c)
  {
  }

  // ---------------------------------------------------------------------
  // Price

  /** The member or non-member tariff of a course. */
  function BasePrice(c: Course, isMember: bool): Cents
  {
    if isMember then c.priceMember else c.priceNonMember
  }

  /** `Registration.price()` for a registration `r` of course `c`, in cents.
      Dividing a two-place decimal by two is exact, so the result is real. */
  function Price(r: Registration, c: Course): (p: real)
    ensures r.halfCourse && c.allowHalf ==> 2.0 * p == BasePrice(c, r.isMember) as real
    ensures !(r.halfCourse && c.allowHalf) ==> p == BasePrice(c, r.isMember) as real
  {
    var base := BasePrice(c, r.isMember) as real;
    if r.halfCourse && c.allowHalf then base / 2.0 else base
  }

  /** `Registration.total_price()`: a flat fee, not multiplied by sessions. */
  function TotalPrice(r: Registration, c: Course): (p: real)
    ensures p == Price(r, c)
    ensures r.halfCourse && c.allowHalf ==> 2.0 * p == BasePrice(c, r.isMember) as real
    ensures !(r.halfCourse && c.allowHalf) ==> p == BasePrice(c, r.isMember) as real
  {
    Price(r, c)
  }

  /** The price is exactly half of the tariff if and only if the participant
      asked for a half course and the course allows one (for a non-zero
      tariff; half of zero is zero). */
  lemma PriceHalvedIff(r: Registration, c: Course)
    requires BasePrice(c, r.isMember) != 0
    ensures 2.0 * Price(r, c) == BasePrice(c, r.isMember) as real <==> r.halfCourse && c.allowHalf
    ensures Price(r, c) == BasePrice(c, r.isMember) as real <==> !(r.halfCourse && c.allowHalf)
  {
  }

  /** A half-course request on a course without the half option is ignored. */
  lemma HalfRequestIgnored(r: Registration, c: Course)
    requires !c.allowHalf
    ensures Price(r, c) == Price(r.(halfCourse := false), c)
  {
  }

  /** For a non-negative tariff the price lies between half of it and all of it. */
  lemma PriceBounds(r: Registration, c: Course)
    requires BasePrice(c, r.isMember) >= 0
    ensures BasePrice(c, r.isMember) as real <= 2.0 * Price(r, c)
    ensures Price(r, c) <= BasePrice(c, r.isMember) as real
  {
  }

  // ---------------------------------------------------------------------
  // Capacity

  /** Rows of `registration_set.filter(status='CONFIRMED')` for course `id`. */
  function ConfirmedFor(id: CourseId): Registration -> bool
  {
    (r: Registration) => r.course == id && r.status == Confirmed
  }

  /** The confirmed registrations of course `id`, in table order. */
  function ConfirmedOf(regs: seq<Registration>, id: CourseId): (r: seq<Registration>)
    ensures forall x :: x in r <==> x in regs && x.course == id && x.status == Confirmed
    ensures forall x :: multiset(r)[x] == if x.course == id && x.status == Confirmed then multiset(regs)[x] else 0
  {
    Filter(regs, ConfirmedFor(id))
  }

  /** `Course.current_registrations()`. */
  function CurrentRegistrations(c: Course, regs: seq<Registration>): (n: nat)
    ensures n <= |regs|
    ensures n == 0 <==> forall r :: r in regs ==> r.course != c.id || r.status == Waitlist
  {
    var confirmed := ConfirmedOf(regs, c.id);
    assert |confirmed| > 0 ==> confirmed[0] in confirmed;
    |confirmed|
  }

  /** `Course.is_full()`. */
  predicate IsFull(c: Course, regs: seq<Registration>)
  {
    CurrentRegistrations(c, regs) >= c.maxParticipants
  }

  /** Appending one registration raises a course's count by one exactly
      when it is a confirmed registration of that course; waitlist
      registrations and other courses' registrations are never counted. */
  lemma CurrentRegistrationsSnoc(c: Course, regs: seq<Registration>, r: Registration)
    ensures CurrentRegistrations(c, regs + [r])
         == CurrentRegistrations(c, regs) + (if r.course == c.id && r.status == Confirmed then 1 else 0)
  {
    FilterAppend(regs, [r], ConfirmedFor(c.id));
    assert [r][1..] == [];
  }

  /** Saving a registration that is not a confirmed one of course `c` (a
      waitlisted one, or one of another course) never changes whether `c`
      is full; a confirmed one of `c` can only make it full, never less. */
  lemma IsFullAfterSave(c: Course, regs: seq<Registration>, r: Registration)
    ensures !(r.course == c.id && r.status == Confirmed) ==> (IsFull(c, regs + [r]) <==> IsFull(c, regs))
    ensures IsFull(c, regs) ==> IsFull(c, regs + [r])
  {
    CurrentRegistrationsSnoc(c, regs, r);
  }

  /** The count depends only on the confirmed registrations of the course. */
  lemma CurrentRegistrationsEmpty(c: Course, regs: seq<Registration>)
    requires forall i :: 0 <= i < |regs| ==> regs[i].course != c.id || regs[i].status == Waitlist
    ensures CurrentRegistrations(c, regs) == 0
    ensures !IsFull(c, regs) <==> c.maxParticipants > 0
  {
  }

  // ---------------------------------------------------------------------
  // Date validation

  datatype CleanResult = Valid | Invalid(field: string, message: string)

  /** `Course.clean()`: the end date may not precede the start date. */
  function Clean(c: Course): (v: CleanResult)
    ensures v.Invalid? <==> c.startDate.Some? && c.endDate.Some? && c.endDate.value < c.startDate.value
    ensures v.Invalid? ==> v.field == "end_date"
  {
    if c.endDate.Some? && c.startDate.Some? && c.endDate.value < c.startDate.value then
      Invalid("end_date", "Enddatum darf nicht vor dem Startdatum liegen.")
    else Valid
  }

  // ---------------------------------------------------------------------
  // Session count

  /** The days from `first` to `last` inclusive whose weekday is desired. */
  ghost function SessionDates(first: int, last: int, desired: set<int>): set<int>
  {
    set d | first <= d <= last && WeekdayIndex(d) in desired
  }

  /** What `Course.session_count()` is meant to return: the number of dates
      in the inclusive range whose weekday is selected, or 0 when a date is
      missing or no weekday is selected. */
  ghost function ExpectedSessions(c: Course): nat
  {
    if c.startDate.None? || c.endDate.None? || |c.days| == 0 then 0
    else |SessionDates(c.startDate.value, c.endDate.value, Desired(c.days))|
  }

  lemma SessionDatesEmpty(first: int, last: int, desired: set<int>)
    requires last < first
    ensures SessionDates(first, last, desired) == {}
  {
  }

  /** Extending the range by its last day adds that day iff it is desired. */
  lemma SessionDatesStep(first: int, last: int, desired: set<int>)
    requires first <= last
    ensures |SessionDates(first, last, desired)|
         == |SessionDates(first, last - 1, desired)| + (if WeekdayIndex(last) in desired then 1 else 0)
  {
    var before := SessionDates(first, last - 1, desired);
    if WeekdayIndex(last) in desired {
      assert SessionDates(first, last, desired) == before + {last};
    } else {
      assert SessionDates(first, last, desired) == before;
    }
  }

  /** A range holds at most as many sessions as days, and exactly as many
      when every weekday is desired. */
  lemma {:induction false} SessionDatesBound(first: int, last: int, desired: set<int>)
    requires first <= last + 1
    ensures |SessionDates(first, last, desired)| <= last - first + 1
    ensures (forall d: int :: WeekdayIndex(d) in desired) ==> |SessionDates(first, last, desired)| == last - first + 1
    decreases last - first
  {
    if last < first {
      SessionDatesEmpty(first, last, desired);
    } else {
      SessionDatesBound(first, last - 1, desired);
      SessionDatesStep(first, last, desired);
    }
  }

  /** A course gets at most one session per day of its range, and one per
      day when all seven weekdays are selected. */
  lemma SessionCountBound(c: Course)
    requires c.startDate.Some? && c.endDate.Some?
    requires c.startDate.value <= c.endDate.value
    ensures ExpectedSessions(c) <= c.endDate.value - c.startDate.value + 1
    ensures (forall w: Weekday :: w in c.days) ==> ExpectedSessions(c) == c.endDate.value - c.startDate.value + 1
  {
    SessionDatesBound(c.startDate.value, c.endDate.value, Desired(c.days));
    if forall w: Weekday :: w in c.days {
      assert MO in c.days;
      AllWeekdaysDesired(c.days);
    }
  }

  /** A course that `clean()` rejects has no sessions: the loop never runs. */
  lemma RejectedCourseHasNoSessions(c: Course)
    requires Clean(c).Invalid?
    ensures ExpectedSessions(c) == 0
  {
    if |c.days| > 0 {
      SessionDatesEmpty(c.startDate.value, c.endDate.value, Desired(c.days));
    }
  }

  /** `Course.session_count()`, walking the range one day at a time. The
      day counter is an unbounded integer, so unlike the source it never
      steps past `date.max` (see `SessionCountAsWritten`). */
  method SessionCount(c: Course) returns (count: nat)
    ensures count == ExpectedSessions(c)
  {
    if c.startDate.None? || c.endDate.None? {
      return 0;
    }
    var desired := if |c.days| > 0 then Desired(c.days) else {};
    if desired == {} {
      return 0;
    }
    var first: int := c.startDate.value;
    var last: int := c.endDate.value;
    count := 0;
    var current: int := first;
    while current <= last
      invariant first <= current
      invariant current <= last + 1 || current == first
      invariant count == |SessionDates(first, current - 1, desired)|
      decreases last - current
    {
      SessionDatesStep(first, current, desired);
      if WeekdayIndex(current) in desired {
        count := count + 1;
      }
      current := current + 1;
    }
    if last < first {
      SessionDatesEmpty(first, last, desired);
      SessionDatesEmpty(first, current - 1, desired);
    }
  }

  /** Python's `OverflowError: date value out of range`. */
  datatype DateOverflow = DateOverflow

  /** The source's loop adds one day after counting the last date of the
      range; when that date is `date.max` the addition raises. */
  predicate StepsPastDateMax(c: Course)
  {
    c.startDate.Some? && c.endDate.Some? && |c.days| > 0
    && c.startDate.value <= c.endDate.value && c.endDate.value == MaxOrdinal
  }

  /** `Course.session_count()` as written: the day counter is a `date`, so
      stepping past 9999-12-31 fails instead of ending the loop. */
  method SessionCountAsWritten(c: Course) returns (r: Result<nat, DateOverflow>)
    ensures r.Failure? <==> StepsPastDateMax(c)
    ensures r.Success? ==> r.value == ExpectedSessions(c)
  {
    if c.startDate.None? || c.endDate.None? {
      return Success(0);
    }
    var desired := if |c.days| > 0 then Desired(c.days) else {};
    if desired == {} {
      return Success(0);
    }
    var first: int := c.startDate.value;
    var last: int := c.endDate.value;
    var count := 0;
    var current: Date := c.startDate.value;
    while current <= last
      invariant first <= current
      invariant current <= last + 1 || current == first
      invariant count == |SessionDates(first, current - 1, desired)|
      decreases last - current
    {
      SessionDatesStep(first, current, desired);
      if WeekdayIndex(current) in desired {
        count := count + 1;
      }
      if current == MaxOrdinal {
        return Failure(DateOverflow);
      }
      current := current + 1;
    }
    if last < first {
      SessionDatesEmpty(first, last, desired);
      SessionDatesEmpty(first, current - 1, desired);
    }
    return Success(count);
  }

  /** A one-day course on Friday 9999-12-31 (ordinal 3652059, a Friday) has
      one session, but the source's loop raises on it. */
  lemma DateMaxCourseOverflows()
    ensures var c := Course(0, "Silvester", "", [], Some(MaxOrdinal), Some(MaxOrdinal), 0, 0,
                            [FR], 10, 1000, 2000, false, "", None);
            StepsPastDateMax(c) && ExpectedSessions(c) == 1
  {
    var c := Course(0, "Silvester", "", [], Some(MaxOrdinal), Some(MaxOrdinal), 0, 0,
                    [FR], 10, 1000, 2000, false, "", None);
    assert WeekdayIndex(MaxOrdinal) == 4;
    assert Desired(c.days) == {4};
    assert SessionDates(MaxOrdinal, MaxOrdinal, {4}) == {MaxOrdinal};
  }
}

=== FILE: util.dfy ===
/** Generic helpers shared by the course-registration model: an optional
    value, order-preserving filtering (the shape of a queryset `.filter`),
    string joining (Python's `str.join`) and the lexicographic order Python
    uses to compare strings. */
module Util {

  datatype Option<+T> = None | Some(value: T)

  /** The value of a computation, or the exception it raised. */
  datatype Result<+T, +E> = Success(value: T) | Failure(error: E)

  /** The elements of `s` that satisfy `p`, in their original order. */
  function Filter<T(!new)>(s: seq<T>, p: T -> bool): (r: seq<T>)
    ensures |r| <= |s|
    ensures forall i :: 0 <= i < |r| ==> p(r[i])
    ensures forall x :: x in r <==> x in s && p(x)
    ensures forall x :: multiset(r)[x] == if p(x) then multiset(s)[x] else 0
  {
    if |s| == 0 then []
    else
      assert s == [s[0]] + s[1..];
      if p(s[0]) then [s[0]] + Filter(s[1..], p) else Filter(s[1..], p)
  }

  /** Filtering distributes over concatenation, so filtering keeps the
      relative order of the elements it keeps. */
  lemma {:induction false} FilterAppend<T(!new)>(a: seq<T>, b: seq<T>, p: T -> bool)
    ensures Filter(a + b, p) == Filter(a, p) + Filter(b, p)
  {
    if |a| == 0 {
      assert a + b == b;
    } else {
      assert (a + b)[0] == a[0];
      assert (a + b)[1..] == a[1..] + b;
      FilterAppend(a[1..], b, p);
    }
  }

  /** `sep.join(parts)`. */
  function Join(parts: seq<string>, sep: string): string
  {
    if |parts| == 0 then ""
    else if |parts| == 1 then parts[0]
    else parts[0] + sep + Join(parts[1..], sep)
  }

  /** Sum of the lengths of `parts`. */
  function TotalLength(parts: seq<string>): nat
  {
    if |parts| == 0 then 0 else |parts[0]| + TotalLength(parts[1..])
  }

  /** Where `parts[i]` starts inside `Join(parts, sep)`. */
  function JoinOffset(parts: seq<string>, sep: string, i: nat): nat
    requires i <= |parts|
  {
    TotalLength(parts[..i]) + i * |sep|
  }

  /** A joined string is as long as its parts plus one separator between
      each neighbouring pair. */
  lemma {:induction false} JoinLength(parts: seq<string>, sep: string)
    requires |parts| > 0
    ensures |Join(parts, sep)| == TotalLength(parts) + (|parts| - 1) * |sep|
  {
    if |parts| == 1 {
      assert TotalLength(parts[1..]) == 0;
    } else {
      JoinLength(parts[1..], sep);
    }
  }

  /** Every part can be read back from the joined string at its offset. */
  lemma {:induction false} JoinSlice(parts: seq<string>, sep: string, i: nat)
    requires i < |parts|
    ensures JoinOffset(parts, sep, i) + |parts[i]| <= |Join(parts, sep)|
    ensures Join(parts, sep)[JoinOffset(parts, sep, i)..JoinOffset(parts, sep, i) + |parts[i]|] == parts[i]
  {
    var r := Join(parts, sep);
    if i == 0 {
      assert parts[..0] == [];
      if |parts| > 1 {
        assert r == parts[0] + (sep + Join(parts[1..], sep));
      }
    } else {
      var tail := parts[1..];
      assert parts[..i] == [parts[0]] + tail[..i - 1];
      assert TotalLength(parts[..i]) == |parts[0]| + TotalLength(tail[..i - 1]);
      JoinSlice(tail, sep, i - 1);
      var k := |parts[0]| + |sep|;
      assert r == (parts[0] + sep) + Join(tail, sep);
      assert JoinOffset(parts, sep, i) == k + JoinOffset(tail, sep, i - 1);
    }
  }

  /** The separator follows every part but the last. */
  lemma {:induction false} JoinSep(parts: seq<string>, sep: string, i: nat)
    requires i + 1 < |parts|
    ensures JoinOffset(parts, sep, i) + |parts[i]| + |sep| <= |Join(parts, sep)|
    ensures Join(parts, sep)[JoinOffset(parts, sep, i) + |parts[i]|..JoinOffset(parts, sep, i) + |parts[i]| + |sep|] == sep
  {
    var r := Join(parts, sep);
    var tail := parts[1..];
    assert r == (parts[0] + sep) + Join(tail, sep);
    if i == 0 {
      assert parts[..0] == [];
    } else {
      assert parts[..i] == [parts[0]] + tail[..i - 1];
      assert TotalLength(parts[..i]) == |parts[0]| + TotalLength(tail[..i - 1]);
      JoinSep(tail, sep, i - 1);
      var k := |parts[0]| + |sep|;
      assert JoinOffset(parts, sep, i) == k + JoinOffset(tail, sep, i - 1);
    }
  }

  /** `part` occurs in `text` starting at index `k`. */
  predicate OccursAt(text: string, part: string, k: nat)
  {
    k + |part| <= |text| && text[k..k + |part|] == part
  }

  /** `text` is laid out as `sep.join(parts)`: it is as long as the parts and
      separators together, every part sits at its offset, and `sep` follows
      every part but the last. */
  predicate JoinedAs(text: string, parts: seq<string>, sep: string)
  {
    && |parts| > 0
    && |text| == TotalLength(parts) + (|parts| - 1) * |sep|
    && (forall i :: 0 <= i < |parts| ==> OccursAt(text, parts[i], JoinOffset(parts, sep, i)))
    && (forall i :: 0 <= i < |parts| - 1 ==> OccursAt(text, sep, JoinOffset(parts, sep, i) + |parts[i]|))
  }

  /** `Join` produces the layout `JoinedAs` describes. */
  lemma JoinLaysOut(parts: seq<string>, sep: string)
    requires |parts| > 0
    ensures JoinedAs(Join(parts, sep), parts, sep)
  {
    JoinLength(parts, sep);
    forall i | 0 <= i < |parts|
      ensures OccursAt(Join(parts, sep), parts[i], JoinOffset(parts, sep, i))
    {
      JoinSlice(parts, sep, i);
    }
    forall i | 0 <= i < |parts| - 1
      ensures OccursAt(Join(parts, sep), sep, JoinOffset(parts, sep, i) + |parts[i]|)
    {
      JoinSep(parts, sep, i);
    }
  }

  /** The offsets of the parts after the first, measured from the start of
      the text that follows the first separator. */
  lemma JoinOffsetTail(parts: seq<string>, sep: string, i: nat)
    requires i + 1 <= |parts|
    ensures JoinOffset(parts, sep, i + 1) == |parts[0]| + |sep| + JoinOffset(parts[1..], sep, i)
  {
    assert parts[..i + 1] == [parts[0]] + parts[1..][..i];
  }

  /** The parts after the first sit in the text after the first separator
      at their offsets within the tail. */
  lemma JoinedAsTailParts(text: string, parts: seq<string>, sep: string)
    requires JoinedAs(text, parts, sep) && |parts| > 1
    requires |parts[0]| + |sep| <= |text|
    ensures forall i :: 0 <= i < |parts| - 1 ==>
              OccursAt(text[|parts[0]| + |sep|..], parts[1..][i], JoinOffset(parts[1..], sep, i))
  {
    var tail, k := parts[1..], |parts[0]| + |sep|;
    forall i | 0 <= i < |tail|
      ensures OccursAt(text[k..], tail[i], JoinOffset(tail, sep, i))
    {
      JoinOffsetTail(parts, sep, i);
      assert OccursAt(text, parts[i + 1], JoinOffset(parts, sep, i + 1));
      var o := JoinOffset(tail, sep, i);
      assert text[k..][o..o + |tail[i]|] == text[k + o..k + o + |tail[i]|];
    }
  }

  /** Likewise for the separators after the first. */
  lemma JoinedAsTailSeps(text: string, parts: seq<string>, sep: string)
    requires JoinedAs(text, parts, sep) && |parts| > 1
    requires |parts[0]| + |sep| <= |text|
    ensures forall i :: 0 <= i < |parts| - 2 ==>
              OccursAt(text[|parts[0]| + |sep|..], sep, JoinOffset(parts[1..], sep, i) + |parts[1..][i]|)
  {
    var tail, k := parts[1..], |parts[0]| + |sep|;
    forall i | 0 <= i < |tail| - 1
      ensures OccursAt(text[k..], sep, JoinOffset(tail, sep, i) + |tail[i]|)
    {
      JoinOffsetTail(parts, sep, i);
      assert OccursAt(text, sep, JoinOffset(parts, sep, i + 1) + |parts[i + 1]|);
      var o := JoinOffset(tail, sep, i) + |tail[i]|;
      assert text[k..][o..o + |sep|] == text[k + o..k + o + |sep|];
    }
  }

  /** The text after the first part and separator is laid out as the join
      of the remaining parts. */
  lemma JoinedAsTail(text: string, parts: seq<string>, sep: string)
    requires JoinedAs(text, parts, sep) && |parts| > 1
    ensures |parts[0]| + |sep| <= |text|
    ensures JoinedAs(text[|parts[0]| + |sep|..], parts[1..], sep)
  {
    assert TotalLength(parts) == |parts[0]| + TotalLength(parts[1..]);
    JoinedAsTailParts(text, parts, sep);
    JoinedAsTailSeps(text, parts, sep);
  }

  /** The layout determines the text: only `sep.join(parts)` is laid out as
      `JoinedAs` describes. */
  lemma {:induction false} JoinedAsUnique(text: string, parts: seq<string>, sep: string)
    requires JoinedAs(text, parts, sep)
    ensures text == Join(parts, sep)
  {
    var p0 := parts[0];
    assert parts[..0] == [];
    assert OccursAt(text, p0, JoinOffset(parts, sep, 0));
    if |parts| == 1 {
      assert TotalLength(parts) == |p0| + TotalLength(parts[1..]);
      assert text == text[0..|p0|];
    } else {
      var k := |p0| + |sep|;
      assert OccursAt(text, sep, JoinOffset(parts, sep, 0) + |p0|);
      JoinedAsTail(text, parts, sep);
      JoinedAsUnique(text[k..], parts[1..], sep);
      assert text == text[0..|p0|] + text[|p0|..k] + text[k..];
    }
  }

  /** Python's `<=` on strings: lexicographic by code point, a proper
      prefix coming first. */
  predicate LexLe(a: string, b: string)
  {
    |a| == 0 || (|b| > 0 && (a[0] < b[0] || (a[0] == b[0] && LexLe(a[1..], b[1..]))))
  }

  lemma {:induction false} LexLeTotal(a: string, b: string)
    ensures LexLe(a, b) || LexLe(b, a)
  {
    if |a| > 0 && |b| > 0 && a[0] == b[0] {
      LexLeTotal(a[1..], b[1..]);
    }
  }

  lemma {:induction false} LexLeTransitive(a: string, b: string, c: string)
    requires LexLe(a, b) && LexLe(b, c)
    ensures LexLe(a, c)
  {
    if |a| > 0 && a[0] == b[0] && b[0] == c[0] {
      LexLeTransitive(a[1..], b[1..], c[1..]);
    }
  }

  lemma {:induction false} LexLeAntisymmetric(a: string, b: string)
    requires LexLe(a, b) && LexLe(b, a)
    ensures a == b
  {
    if |a| > 0 {
      LexLeAntisymmetric(a[1..], b[1..]);
      assert a == [a[0]] + a[1..];
      assert b == [b[0]] + b[1..];
    }
  }
}

=== FILE: views.dfy ===
/** The public pages of courses/views.py: the list of upcoming courses and
    the registration form, modelled as a function from the store, the
    request and the environment ("today", the next primary key, the
    current time) to a response and the new store. The validation rules
    of the registration form (courses/forms.py and the field declarations
    of courses/models.py) are folded in. */
module Views {
  import opened Util
  import opened Calendar
  import opened Models

  // ---------------------------------------------------------------------
  // Course list

  /** `end_date__gte=today`: a missing end date never matches. */
  predicate Upcoming(c: Course, today: Date)
  {
    c.endDate.Some? && c.endDate.value >= today
  }

  function UpcomingOn(today: Date): Course -> bool
  {
    (c: Course) => Upcoming(c, today)
  }

  /** The courses `course_list` shows, in table order. */
  function CourseList(courses: seq<Course>, today: Date): (shown: seq<Course>)
    ensures forall c :: c in shown <==> c in courses && c.endDate.Some? && today <= c.endDate.value
    ensures forall c :: multiset(shown)[c] == if Upcoming(c, today) then multiset(courses)[c] else 0
  {
    Filter(courses, UpcomingOn(today))
  }

  /** Listing is order-preserving: the list of a concatenation of tables is
      the concatenation of their lists. */
  lemma CourseListAppend(a: seq<Course>, b: seq<Course>, today: Date)
    ensures CourseList(a + b, today) == CourseList(a, today) + CourseList(b, today)
  {
    FilterAppend(a, b, UpcomingOn(today));
  }

  /** A later "today" never shows more courses. */
  lemma {:induction false} CourseListShrinks(courses: seq<Course>, today: Date, later: Date)
    requires today <= later
    ensures |CourseList(courses, later)| <= |CourseList(courses, today)|
  {
    if |courses| > 0 {
      CourseListShrinks(courses[1..], today, later);
      assert |CourseList(courses, today)|
          == (if Upcoming(courses[0], today) then 1 else 0) + |CourseList(courses[1..], today)|;
      assert |CourseList(courses, later)|
          == (if Upcoming(courses[0], later) then 1 else 0) + |CourseList(courses[1..], later)|;
    }
  }

  // ---------------------------------------------------------------------
  // Registration form

  /** The posted fields of `RegistrationForm`, after the form's whitespace
      stripping. `emailWellFormed` is the verdict of the framework's e-mail
      validator on `email`. */
  datatype Submission = Submission(
    firstName: string,
    lastName: string,
    email: string,
    iban: string,
    bic: string,
    accountHolder: string,
    isMember: bool,
    halfCourse: bool,
    acceptTerms: bool,
    emailWellFormed: bool)

  /** The request method: POST with its data, or any other method (GET,
      HEAD, ...), which `register` answers with the empty form. */
  datatype Request = OtherMethod | Post(data: Submission)

  datatype Response =
    | NotFound                 // get_object_or_404 failed
    | FormPage(course: Course) // the form, empty or with errors
    | RedirectToCourseList     // the registration was saved

  /** Every form `CharField` (`EmailField` included) refuses a non-empty
      value that contains the null character. */
  predicate NoNullCharacter(s: string)
  {
    '\0' !in s
  }

  /** A required `CharField` of the given `max_length`. */
  predicate RequiredText(s: string, maxLength: nat)
  {
    0 < |s| <= maxLength && NoNullCharacter(s)
  }

  /** The field-level checks derived from the model's field declarations:
      required names, e-mail, IBAN and account holder, an optional BIC, and
      every text within its column's `max_length` and free of null
      characters. */
  predicate FieldsValid(s: Submission)
  {
    && RequiredText(s.firstName, 100)
    && RequiredText(s.lastName, 100)
    && RequiredText(s.email, 254) && s.emailWellFormed
    && RequiredText(s.iban, 34)
    && |s.bic| <= 11 && NoNullCharacter(s.bic)
    && RequiredText(s.accountHolder, 200)
  }

  /** `form.is_valid()`: the fields are valid and the terms were accepted. */
  predicate FormValid(s: Submission)
  {
    FieldsValid(s) && s.acceptTerms
  }

  /** The row `register` saves: the form's fields, the course from the URL,
      WAITLIST when the course is already full and the default status
      otherwise. `terms_accepted` is not among the form's model fields, so it
      keeps its default. */
  function NewRegistration(c: Course, regs: seq<Registration>, s: Submission,
                           id: RegistrationId, now: Timestamp): (r: Registration)
    ensures r.course == c.id && r.id == id && r.created == now
    ensures r.status == Waitlist <==> CurrentRegistrations(c, regs) >= c.maxParticipants
    ensures !r.termsAccepted
    ensures r.firstName == s.firstName && r.lastName == s.lastName && r.email == s.email
    ensures r.iban == s.iban && r.bic == s.bic && r.accountHolder == s.accountHolder
    ensures r.isMember == s.isMember && r.halfCourse == s.halfCourse
  {
    var status := if IsFull(c, regs) then Waitlist else DefaultStatus;
    Registration(id, c.id, s.firstName, s.lastName, s.email, s.iban, s.bic,
                 s.accountHolder, false, s.isMember, s.halfCourse, status, now)
  }

  /** `register(request, course_id)`. `newId` is the primary key the
      database hands out and `now` the creation timestamp. */
  function Register(st: Store, courseId: CourseId, req: Request,
                    newId: RegistrationId, now: Timestamp): (res: (Response, Store))
    ensures FindCourse(st.courses, courseId).None? ==> res == (NotFound, st)
    ensures FindCourse(st.courses, courseId).Some? && (req.OtherMethod? || !FormValid(req.data)) ==>
              res == (FormPage(FindCourse(st.courses, courseId).value), st)
    ensures FindCourse(st.courses, courseId).Some? && req.Post? && FormValid(req.data) ==>
              && res.0 == RedirectToCourseList
              && res.1.courses == st.courses
              && |res.1.registrations| == |st.registrations| + 1
              && res.1.registrations[..|st.registrations|] == st.registrations
              && res.1.registrations[|st.registrations|].course == courseId
              && res.1.registrations[|st.registrations|]
                   == NewRegistration(FindCourse(st.courses, courseId).value, st.registrations, req.data, newId, now)
  {
    match FindCourse(st.courses, courseId)
    case None => (NotFound, st)
    case Some(c) =>
      if req.Post? && FormValid(req.data) then
        var r := NewRegistration(c, st.registrations, req.data, newId, now);
        (RedirectToCourseList, st.(registrations := st.registrations + [r]))
      else (FormPage(c), st)
  }

  /** For a known course, a submission is saved exactly when the terms are
      accepted, first and last name are given with at most 100 characters, a
      well-formed e-mail address of at most 254 characters, an IBAN of at
      most 34 characters, a BIC of at most 11 characters (possibly empty) and
      an account holder of at most 200 characters, and no text contains the
      null character. */
  lemma RegisterAcceptsExactlyValidForms(st: Store, courseId: CourseId, s: Submission,
                                         newId: RegistrationId, now: Timestamp)
    requires FindCourse(st.courses, courseId).Some?
    ensures Register(st, courseId, Post(s), newId, now).0 == RedirectToCourseList
        <==> && s.acceptTerms
             && 0 < |s.firstName| <= 100
             && 0 < |s.lastName| <= 100
             && 0 < |s.email| <= 254 && s.emailWellFormed
             && 0 < |s.iban| <= 34
             && |s.bic| <= 11
             && 0 < |s.accountHolder| <= 200
             && '\0' !in s.firstName && '\0' !in s.lastName && '\0' !in s.email
             && '\0' !in s.iban && '\0' !in s.bic && '\0' !in s.accountHolder
  {
  }

  /** A submission that does not accept the terms is never saved, whatever
      else it contains. */
  lemma TermsMustBeAccepted(st: Store, courseId: CourseId, s: Submission,
                            newId: RegistrationId, now: Timestamp)
    requires !s.acceptTerms
    ensures Register(st, courseId, Post(s), newId, now).1 == st
    ensures Register(st, courseId, Post(s), newId, now).0 != RedirectToCourseList
  {
  }

  /** The saved registration is WAITLIST exactly when the course was full
      just before the save, and CONFIRMED otherwise. */
  lemma RegisterStatus(st: Store, courseId: CourseId, s: Submission,
                       newId: RegistrationId, now: Timestamp)
    requires FindCourse(st.courses, courseId).Some? && FormValid(s)
    ensures var c := FindCourse(st.courses, courseId).value;
            var added := Register(st, courseId, Post(s), newId, now).1.registrations[|st.registrations|];
            && (added.status == Waitlist <==> IsFull(c, st.registrations))
            && (added.status == Confirmed <==> CurrentRegistrations(c, st.registrations) < c.maxParticipants)
            && !added.termsAccepted
  {
  }

  /** Every course's capacity is respected by its confirmed registrations. */
  predicate WithinCapacity(st: Store)
  {
    forall c :: c in st.courses ==> CurrentRegistrations(c, st.registrations) <= c.maxParticipants
  }

  /** Submitting a registration changes the confirmed count of the chosen
      course by one exactly when it was not full, and leaves every other
      course's count alone. */
  lemma RegisterCounts(st: Store, courseId: CourseId, req: Request,
                       newId: RegistrationId, now: Timestamp, d: Course)
    requires UniqueCourseIds(st.courses)
    requires d in st.courses
    ensures var after := Register(st, courseId, req, newId, now).1;
            var grew := d.id == courseId && req.Post? && FormValid(req.data) && !IsFull(d, st.registrations);
            CurrentRegistrations(d, after.registrations)
              == CurrentRegistrations(d, st.registrations) + (if grew then 1 else 0)
  {
    var res := Register(st, courseId, req, newId, now);
    match FindCourse(st.courses, courseId)
    case None =>
    case Some(c) =>
      if req.Post? && FormValid(req.data) {
        var r := NewRegistration(c, st.registrations, req.data, newId, now);
        assert res.1.registrations == st.registrations + [r];
        CurrentRegistrationsSnoc(d, st.registrations, r);
        if d.id == courseId {
          FindCourseUnique(st.courses, d);
        }
      }
  }

  /** Sequential submissions never push a course past its capacity: the
      capacity check and the save happen in one step. */
  lemma RegisterKeepsCapacity(st: Store, courseId: CourseId, req: Request,
                              newId: RegistrationId, now: Timestamp)
    requires UniqueCourseIds(st.courses)
    requires WithinCapacity(st)
    ensures WithinCapacity(Register(st, courseId, req, newId, now).1)
  {
    var after := Register(st, courseId, req, newId, now).1;
    assert after.courses == st.courses;
    forall d | d in after.courses
      ensures CurrentRegistrations(d, after.registrations) <= d.maxParticipants
    {
      RegisterCounts(st, courseId, req, newId, now, d);
    }
  }
}
